=== FILE: README.md ===
# Viktor game run model

A Dafny model of the run logic of a single-screen arcade game written in JavaScript on Phaser.
A bird-like avatar collects coins and dodges bosses. Its wealth grows by coin value times a
multiplier, and a special coin doubles that multiplier. A boss costs a life. Reaching one
billion wins the run, and leaving the screen or losing the last life ends it.

Once every engine call is stripped away, `GameScene` is integer bookkeeping. The model keeps
that bookkeeping and turns its inputs into explicit values:

- physics overlaps, timer callbacks, frames and taps are the cases of `Game.Event`;
- random draws and the clock are fields of those events;
- each transition is a pure function over the immutable `Game.RunState`.

Modules:

- `Presence`: the `Maybe` type for values a payload or lookup may lack.
- `Config`: the game constants of `src/config.js`.
- `Decimal`: integer-to-string conversion and a parser that reads it back.
- `Formatters`: `formatMoney`, plus a reader (`ReadMoney`) that inverts it.
- `Game`: the `GameScene` state machine. Its pieces are `init`, `spawnCoin`, `collectCoin`, `hitBoss` with its delayed continuation, the logic of `update`, and `generateTickerString`.
- `GameProperties`: the run invariant and multi-step scenarios over event sequences.
- `GameOver`: the texts and restart payload that `GameOverScene.create` derives.
- `AsShipped`: the game against the constants table as shipped (see Findings).

Conventions:

- **Missing constants.** `STARTING_LIVES`, `SPECIAL_COIN_CHANCE` and `SPECIAL_COIN_MESSAGES` are read but not defined in `src/config.js`. The first two are fields of `Game.Params`. `Game.ValidParams` requires at least one starting life and a one-in-N chance with N ≥ 1. No values are invented for them. `Game` assumes that `SPECIAL_COIN_MESSAGES` is defined for both coin kinds. Its strings only feed the floating text, so they need no field. `AsShipped` models all three entries as missing.
- **Delayed callbacks.** The two delayed callbacks are the phases `WinPending(due)` and `HitPending(due)`. A `TimerFired(now)` event with `now >= due` runs the callback. Its payload is built from the state at firing time, as the closure reads `this` when it runs.
- **Pausing.** Physics pauses on a win or a boss hit. After that, spawning, collecting and boss hits are ignored. Frames keep running, as `update` does, and so do off-screen cleanups. So an expiring special banner can restore the ticker speed while a win or hit callback is pending.
- **Numbers.** All amounts are integers. The multiplier starts at 1 and only doubles, so it always satisfies `Number.isInteger`. Multipliers are therefore printed in the integer form.
- **`formatMoney` rendering.** `toLocaleString` is taken to be the en-US rendering, with a comma every three digits. `toFixed(2)` is taken to round the exact quotient to the nearest hundredth, with ties going up.

Behaviour a reader might expect to be otherwise, modelled as the code does it:

- Wealth is credited exactly. There is no rounding policy.
- A special coin credits its value at the already doubled multiplier.
- The highest multiplier is refreshed only when a boss hit is survived. A summary can therefore report less than the multiplier the run ended with (`GameProperties.WinCanUnderreportMultiplier`).
- Leaving the screen ends the run with zero lives, whatever the count.

## Model

| member | source | states |
|---|---|---|
| Config.CoinValue | src/config.js:25-28 | coin1 is worth 10 and coin2 20; every coin value is positive |
| Config.ConstantsAgree | src/config.js:18-23 | goal one billion, coin interval 1000 ms and boss interval 10000 ms, ticker speed 100 px/s, jump velocity -300 (upward) |
| Decimal.IntToString | src/scenes/GameScene.js:161 | the rendering of an integer is non-empty and starts with '-' iff the integer is negative |
| Decimal.NatToString | src/scenes/GameScene.js:161 | a count is rendered as at least one decimal digit with no leading zero |
| Decimal.ParseIntToString | src/scenes/GameScene.js:161 | the decimal rendering of any integer reads back as that integer |
| Decimal.IntToStringCanonical | src/scenes/GameScene.js:161 | the digits of an integer's rendering are canonical, with no padding zeros, after the minus sign if there is one |
| Decimal.IntToStringInjective | src/scenes/GameOverScene.js:41 | distinct counts are displayed differently |
| Formatters.FormatMoney | src/utils/formatters.js:6-13 | result starts with "$"; ends in "B" iff amount ≥ 1e9, in "M" iff 1e6 ≤ amount < 1e9, in a digit iff amount < 1e6, so exactly one branch applies and B takes precedence; the text of each branch is pinned by FormatMoneySmallGrouped and FormatMoneyScaledWhole |
| Formatters.Fixed2 | src/utils/formatters.js:8-10 | `toFixed(2)` text: at least four characters, only digits and a point, with the point third from the end |
| Formatters.ReadFixed2Back | src/utils/formatters.js:8-10 | the `toFixed(2)` text of h hundredths reads back as h |
| Formatters.RoundHundredths | src/utils/formatters.js:8-10 | the two-decimal figure is the hundredth of the unit nearest the amount, ties up |
| Formatters.LocaleString | src/utils/formatters.js:12 | `toLocaleString` text: ends in a digit, starts with '-' iff the amount is negative, and otherwise holds only digits and commas |
| Formatters.ReadLocaleString | src/utils/formatters.js:12 | the `toLocaleString` text of any integer reads back as that integer |
| Formatters.FormatMoneySmallGrouped | src/utils/formatters.js:11-12 | for 0 ≤ amount < 1e6 the text after "$" is exactly the en-US grouping of the amount ("$1,234", "$7") |
| Formatters.Grouped | src/utils/formatters.js:12 | the text starts and ends with a digit, has no leading zero, holds only digits and commas, and has a comma at exactly the positions followed by a multiple of four characters |
| Formatters.GroupedLeadGroup | src/utils/formatters.js:12 | the grouped text's length is never a multiple of four, so the leading group holds one to three digits and every full group of three is set off by a comma ("1,234", never "1234") |
| Formatters.GroupedDigits | src/utils/formatters.js:11-12 | removing the grouping commas leaves exactly the canonical decimal digits of the amount |
| Formatters.Fixed2Canonical | src/utils/formatters.js:8-10 | the whole part `toFixed(2)` writes is the canonical decimal of the whole units, with no padding zeros ("1.50", never "01.50") |
| Formatters.FormatMoneyScaledWhole | src/utils/formatters.js:7-10 | in the B and M forms the figure between "$" and the ".dd" suffix is the canonical decimal of the whole billions or millions shown |
| Formatters.ReadFormatMoney | src/utils/formatters.js:7-12 | every formatted amount reads back as the exact amount below a million, else as the rounded hundredths with suffix M or B |
| Formatters.FormatMoneySmallExample | src/utils/formatters.js:11-12 | 999 is shown as "$999" |
| Formatters.FormatMoneyMillionExample | src/utils/formatters.js:9-10 | 1500000 is shown as "$1.50M" |
| Formatters.FormatMoneyBillionExample | src/utils/formatters.js:7-8 | 2000000000 is shown as "$2.00B" |
| Game.ToGoal | src/scenes/GameScene.js:154 | amount to goal is never negative, is 0 exactly when wealth ≥ goal, and otherwise tops wealth up to the goal |
| Game.Init | src/scenes/GameScene.js:12-27 | lives, wealth, coins, multiplier and highest multiplier come from the payload when present, else starting lives/0/0/1/1; spawn count 0, no coins, special banner cleared, default ticker speed |
| Game.RestartPayload | src/scenes/GameScene.js:465-472 | the continue payload carries the current lives, wealth, coins, multiplier and highest multiplier |
| Game.SpawnCoinStep | src/scenes/GameScene.js:213-236 | spawn count goes up by exactly one; the new coin has the drawn kind, value COIN_VALUES[kind], y in [50, height-50], and is special iff the draw is 1; other coins and stats unchanged |
| Game.SpecialMessage | src/scenes/GameScene.js:347-349 | coin1 raises "Good Investment! Multiplier Doubled!", coin2 "Promotion! Multiplier Doubled!" |
| Game.CollectCoinStep | src/scenes/GameScene.js:321-409 | coin removed, count +1, wealth + value × multiplier after doubling; special doubles the multiplier and raises the banner until now + 3000, non-special leaves both alone; reaching the goal freezes the ticker and schedules victory at now + 1000; an unknown coin changes nothing |
| Game.HitBossStep | src/scenes/GameScene.js:435-441 | exactly one life lost, ticker frozen, continuation due at now + 2000, nothing else changed |
| Game.SummaryOf | src/scenes/GameScene.js:400-407 | the summary payload reports the run's coins, wealth, highest multiplier and the goal |
| Game.TimerStep | src/scenes/GameScene.js:441-486 | a due win callback yields a goalReached summary; a due hit callback with lives left refreshes the highest multiplier to max(highest, current) and prompts, with none left yields a defeat summary; nothing happens before the due time |
| Game.TapStep | src/scenes/GameScene.js:459-475 | a tap at the prompt restarts the scene from the continue payload; other taps change no modelled state |
| Game.FrameStep | src/scenes/GameScene.js:173-199 | y above height or below 0 ends the run with goalReached false and lives 0; otherwise an expired banner (now > expires) is dropped and the default speed restored, else nothing changes |
| Game.MultiplierText | src/scenes/GameScene.js:157 | the printed multiplier reads back as the multiplier, is canonical for a non-negative multiplier, and contains no bullet |
| Game.DefaultTickerString | src/scenes/GameScene.js:152-162 | cut at its bullets, the stats line reads back as the wealth, max(goal - wealth, 0), the coin count and the multiplier, with each money field reading as `formatMoney` shows it |
| Game.TickerText | src/scenes/GameScene.js:201-205 | the ticker shows the special message while it is up; otherwise it shows a stats line that reads back as the run's current stats |
| Game.Step | src/scenes/GameScene.js:164-488 | once physics is paused, coin spawns, collections and boss hits change nothing; an off-screen coin is removed and nothing else changes; a tap away from the prompt changes nothing; only a timer or a frame ends a run, and only a pending win ends it with the goal reached |
| GameProperties.FreshRun | src/scenes/GameScene.js:16-21 | a fresh run starts with starting lives, wealth 0, coins 0, multiplier 1, highest 1, and satisfies the run invariant |
| GameProperties.ContinueKeepsProgress | src/scenes/GameScene.js:464-472 | continuing after a hit keeps lives, wealth, coins, multiplier and highest multiplier, with a new spawn cycle |
| GameProperties.CollectPreservesInv | src/scenes/GameScene.js:343-386 | collecting keeps the multiplier a power of two, wealth non-negative and the win phase iff wealth ≥ goal |
| GameProperties.StepPreservesInv | src/scenes/GameScene.js:164-488 | every event keeps lives ≥ 0 (≥ 1 in play), the multiplier and highest multiplier powers of two with highest ≤ current, win pending iff wealth ≥ goal, coin values from the table |
| GameProperties.StepMonotone | src/scenes/GameScene.js:355-386 | no event lowers wealth, coins, multiplier or highest multiplier; a summary reports the run's stats, lives ≥ 0, and goalReached only with wealth ≥ goal |
| GameProperties.RunKeepsInvariant | src/scenes/GameScene.js:164-488 | over any event sequence the invariant holds and wealth and coin count never decrease |
| GameProperties.SurvivedHitRound | src/scenes/GameScene.js:441-475 | a hit with a life to spare, its continuation and the tap restart the scene from the continue payload, with the highest multiplier raised to the current one |
| GameProperties.LivesRunOut | src/scenes/GameScene.js:437-486 | with n lives, n boss hits end the run in defeat with lives 0 and the stats kept |
| GameProperties.ThreeHitsDefeat | src/scenes/GameScene.js:437-486 | starting with 3 lives, 3 hits give a defeat summary with no lives |
| GameProperties.GoalCoinWins | src/scenes/GameScene.js:391-408 | the coin, regular or special, that reaches the goal leads 1000 ms later to a victory summary. The summary carries the wealth after that collection and nothing left to the goal. |
| GameProperties.LastCoinExample | src/scenes/GameScene.js:391-408 | one coin1 at multiplier 1 takes 999,999,990 to a victory with wealth exactly the goal |
| GameProperties.SpecialCoinGain | src/scenes/GameScene.js:343-386 | the gain is value × previous multiplier, doubled for a special coin; a non-special coin keeps multiplier and banner |
| GameProperties.WinCanUnderreportMultiplier | src/scenes/GameScene.js:399-408 | a win reached through a special coin reports highest multiplier 1 while playing at 2 |
| GameProperties.OutOfBoundsIgnoresLives | src/scenes/GameScene.js:174-186 | leaving the screen ends the run with lives 0 and goalReached false, whatever lives were left |
| GameProperties.SpecialBannerWindow | src/scenes/GameScene.js:195-203 | after a special coin at t, whether or not it reached the goal, the banner shows iff now ≤ t + 3000; afterwards the stats line shows at default speed |
| GameOver.SummaryScreen | src/scenes/GameOverScene.js:20-55 | title "Victory!" iff goalReached, else "Game Over"; restart passes only startFlap |
| GameOver.SummaryReadsBack | src/scenes/GameOverScene.js:41-45 | the coins line shows the payload's coins unchanged, the multiplier line its highest multiplier |
| GameOver.SummaryMoneyLines | src/scenes/GameOverScene.js:32-38 | the wealth and to-goal lines read back as `formatMoney` shows the wealth and max(goal - wealth, 0), at every scale |
| GameOver.VictoryShowsGoalMet | src/scenes/GameOverScene.js:35-38 | a victory produced by the game shows "To Goal: $0" |
| GameOver.RestartStartsFresh | src/scenes/GameOverScene.js:55 | restarting from the summary starts from the defaults: wealth 0, coins 0, multiplier 1, starting lives |
| AsShipped.SpecialChanceLookup | src/scenes/GameScene.js:222 | reading the special chance throws exactly when the table is missing |
| AsShipped.ShippedSpawnThrows | src/scenes/GameScene.js:222 | with the constants as shipped every coin spawn throws |
| AsShipped.SpecialMessageLookup | src/scenes/GameScene.js:324 | reading the floating message throws exactly when the message table is missing, else gives coin1's or coin2's entry |
| AsShipped.CollectAsShipped | src/scenes/GameScene.js:321-324 | collecting a special coin throws exactly when the message table is missing; when it does not throw, the collection is the modelled one |
| AsShipped.ShippedSpecialCollectThrows | src/scenes/GameScene.js:324 | with the constants as shipped, collecting a special coin throws before the multiplier doubles; a table with both messages doubles it |
| AsShipped.InitialLives | src/scenes/GameScene.js:16 | lives come from the payload when it has them, else from the table's entry, else are `undefined` |
| AsShipped.FirstHitSurvived | src/scenes/GameScene.js:438-442 | the first hit is survived iff the starting lives (payload first, then table) are a number above 1; an `undefined` count decrements to NaN and never is |
| AsShipped.ShippedFirstHitIsFatal | src/scenes/GameScene.js:16 | with the constants as shipped a fresh run's lives are undefined and its first boss hit ends it |

## Left out

- Physics: gravity, velocities, world bounds and overlap detection. Overlaps and the player's y are event inputs.
- `spawnBoss`: it only places a boss sprite and sets its velocity. A boss overlap arrives as a `HitBoss` event.
- Presentation: tweens, explosions, floating text, heart icons, HUD text, sprite and hitbox scaling, audio, music, `console.log`, and input wiring.
- `SPECIAL_COIN_MESSAGES` strings: they only feed the floating text, which is presentation. The ticker messages are modelled. The lookup's throw is modelled in `AsShipped`.
- Ticker pixel scrolling and wrap-around: they depend on the rendered text width.
- The random number generator: draws are event fields. `Game.Admissible` states the ranges the engine guarantees, which assumes a viewport at least 100 px tall.
- Physics pause timing: a pause takes effect at once. Further overlaps inside the same physics step are not modelled.
- Double-precision arithmetic: `toFixed` and `toLocaleString` locales. The half-up and en-US assumptions are stated above.
- Game.MultiplierText: the `toFixed(2)` branch for a non-integer multiplier is not modelled, because multipliers are whole in this model.
- `gameConfig`, `src/scenes/BootScene.js`, `src/scenes/TitleScene.js` and `src/main.js`: these are engine configuration, asset loading and bootstrap. The title screen's start payload is `Game.FreshStart`.
- The root `main.js`: it is an earlier snapshot with conflicting rules and is not part of this model.

## Findings

| source | as written | input that shows it | evidently intended | confidence | as-written member | corrected member |
|---|---|---|---|---|---|---|
| src/scenes/GameScene.js:222 | reads `GAME_CONSTANTS.SPECIAL_COIN_CHANCE[type]`, a table that src/config.js:18-29 does not define, so the lookup throws | any coin spawn | a one-in-N special chance defined per coin kind | not executed; high | AsShipped.ShippedSpawnThrows | Game.SpawnCoinStep |
| src/scenes/GameScene.js:16 | falls back to `GAME_CONSTANTS.STARTING_LIVES`, which is not defined, so lives start `undefined`, `lives--` gives NaN and `NaN > 0` is false | the first boss hit of a fresh run | a defined starting life count | not executed; medium (reached only if the engine keeps running after the throw at line 222 of the same file) | AsShipped.ShippedFirstHitIsFatal | GameProperties.LivesRunOut |
| src/scenes/GameScene.js:324 | reads `GAME_CONSTANTS.SPECIAL_COIN_MESSAGES[coinType]`, a table that src/config.js:18-29 does not define, so the lookup throws before the multiplier doubles and the coin is credited | collecting any special coin, once `SPECIAL_COIN_CHANCE` exists (as shipped, line 222 of the same file throws before any coin is created) | a floating message defined per coin kind | not executed; high that the lookup throws, latent as shipped | AsShipped.ShippedSpecialCollectThrows | Game.CollectCoinStep |

=== FILE: as_shipped.dfy ===
/** GameScene against the constants table src/config.js actually exports, which lacks
    STARTING_LIVES, SPECIAL_COIN_CHANCE and SPECIAL_COIN_MESSAGES. Reading a key of a missing
    table throws a TypeError; a missing number reads as `undefined`, and arithmetic on it
    gives NaN. */
module AsShipped {

  import opened Presence
  import opened Config
  import opened Game

  /** The entries of GAME_CONSTANTS that GameScene reads beyond the ones config.js defines. */
  datatype Entries = Entries(
    startingLives: Maybe<int>,
    specialChance: Maybe<(int, int)>,
    specialMessages: Maybe<(string, string)>)

  /** The table as shipped: none of the three entries is present. */
  const Shipped: Entries := Entries(Nothing, Nothing, Nothing)

  /** A JavaScript number slot: a number, `undefined`, or NaN. */
  datatype JsNumber = Num(n: int) | Undefined | NaN

  /** The outcome of an expression that may throw. */
  datatype Evaluated<T> = Value(value: T) | TypeError

  /** `GAME_CONSTANTS.SPECIAL_COIN_CHANCE[type]` as `spawnCoin` evaluates it. */
  function SpecialChanceLookup(t: Entries, kind: CoinKind): (r: Evaluated<int>)
    ensures r.TypeError? <==> t.specialChance.Nothing?
    ensures t.specialChance.Just? ==>
      r.value == (if kind == Coin1 then t.specialChance.value.0 else t.specialChance.value.1)
  {
    match t.specialChance
    case Nothing => TypeError
    case Just(chances) => Value(if kind == Coin1 then chances.0 else chances.1)
  }

  /** `GAME_CONSTANTS.SPECIAL_COIN_MESSAGES[coinType]` as `collectCoin` evaluates it for the
      floating text over a special coin. */
  function SpecialMessageLookup(t: Entries, kind: CoinKind): (r: Evaluated<string>)
    ensures r.TypeError? <==> t.specialMessages.Nothing?
    ensures t.specialMessages.Just? ==>
      r.value == (if kind == Coin1 then t.specialMessages.value.0 else t.specialMessages.value.1)
  {
    match t.specialMessages
    case Nothing => TypeError
    case Just(messages) => Value(if kind == Coin1 then messages.0 else messages.1)
  }

  /** `collectCoin` against table `t`: the message lookup for a special coin comes before the
      doubling, the ticker banner, the coin's removal and the credit, so when it throws the
      run is left as it was. */
  function CollectAsShipped(t: Entries, s: RunState, handle: nat, now: int): (r: Evaluated<RunState>)
    ensures handle in s.coins && s.coins[handle].special ==>
      (r.TypeError? <==> t.specialMessages.Nothing?)
    ensures !(handle in s.coins && s.coins[handle].special) ==> r == Value(CollectCoinStep(s, handle, now))
    ensures r.Value? ==> r.value == CollectCoinStep(s, handle, now)
  {
    if handle in s.coins && s.coins[handle].special
       && SpecialMessageLookup(t, s.coins[handle].kind).TypeError?
    then TypeError
    else Value(CollectCoinStep(s, handle, now))
  }

  /** The life count `init` starts with when the payload has none or one. */
  function InitialLives(t: Entries, payloadLives: Maybe<int>): (l: JsNumber)
    ensures payloadLives.Just? ==> l == Num(payloadLives.value)
    ensures payloadLives.Nothing? && t.startingLives.Just? ==> l == Num(t.startingLives.value)
    ensures payloadLives.Nothing? && t.startingLives.Nothing? ==> l == Undefined
  {
    match payloadLives
    case Just(n) => Num(n)
    case Nothing =>
      match t.startingLives
      case Just(n) => Num(n)
      case Nothing => Undefined
  }

  /** `this.lives--` on a JavaScript number slot. */
  function Decrement(x: JsNumber): (r: JsNumber)
    ensures x.Num? <==> r.Num?
    ensures x.Num? ==> r.n == x.n - 1
  {
    match x
    case Num(n) => Num(n - 1)
    case _ => NaN
  }

  /** `this.lives > 0`: false for NaN and `undefined`. */
  predicate Positive(x: JsNumber) {
    x.Num? && x.n > 0
  }

  /** Whether the first boss hit of a run is survived (the 2000 ms callback's test). */
  function FirstHitSurvived(t: Entries, payloadLives: Maybe<int>): (b: bool)
    ensures payloadLives.Just? ==> (b <==> payloadLives.value > 1)
    ensures payloadLives.Nothing? ==> (b <==> t.startingLives.Just? && t.startingLives.value > 1)
  {
    Positive(Decrement(InitialLives(t, payloadLives)))
  }

  /** With the shipped table every coin spawn throws before a coin is created. */
  lemma ShippedSpawnThrows(kind: CoinKind)
    ensures SpecialChanceLookup(Shipped, kind) == TypeError
  {
  }

  /** With the shipped table a fresh run has `undefined` lives, so its first boss hit is
      fatal, whereas a table defining two or more starting lives lets it continue. */
  lemma ShippedFirstHitIsFatal(lives: int)
    requires lives >= 2
    ensures InitialLives(Shipped, Nothing) == Undefined
    ensures !FirstHitSurvived(Shipped, Nothing)
    ensures FirstHitSurvived(Entries(Just(lives), Nothing, Nothing), Nothing)
  {
  }

  /** With the shipped table collecting a special coin throws before the multiplier doubles
      or any wealth is credited, whereas a table defining the two messages gives the modelled
      collection, which doubles the multiplier. */
  lemma ShippedSpecialCollectThrows(s: RunState, handle: nat, now: int, m1: string, m2: string)
    requires handle in s.coins && s.coins[handle].special
    ensures CollectAsShipped(Shipped, s, handle, now) == TypeError
    ensures var r := CollectAsShipped(Entries(Nothing, Nothing, Just((m1, m2))), s, handle, now);
      r.Value? && r.value.multiplier == 2 * s.multiplier
      && r.value.wealth == s.wealth + s.coins[handle].value * 2 * s.multiplier
  {
  }
}

=== FILE: config.dfy ===
/** The game constants of src/config.js (the engine configuration `gameConfig` is not modelled). */
module Config {

  /** Wealth that ends a run in victory: one billion. */
  const Goal: int := 1_000_000_000

  /** Ticker scroll speed in pixels per second. */
  const DefaultTickerSpeed: int := 100

  /** Period of the coin spawner, in milliseconds. */
  const CoinSpawnInterval: int := 1000

  /** Period of the boss spawner, in milliseconds. */
  const BossSpawnInterval: int := 10000

  /** Vertical velocity given by a flap; negative means upward on screen. */
  const PlayerJumpVelocity: int := -300

  /** The two coin kinds, texture keys 'coin1' (cashflow) and 'coin2' (globallogic). */
  datatype CoinKind = Coin1 | Coin2

  /** COIN_VALUES: the base value credited for one coin of each kind. */
  function CoinValue(kind: CoinKind): (v: int)
    ensures v > 0
    ensures kind == Coin1 ==> v == 10
    ensures kind == Coin2 ==> v == 20
  {
    match kind
    case Coin1 => 10
    case Coin2 => 20
  }

  /** The timing and motion constants: the boss spawner is ten times
      slower than the coin spawner, and a flap points up. */
  lemma ConstantsAgree()
    ensures Goal == 1_000_000_000
    ensures BossSpawnInterval == 10 * CoinSpawnInterval && CoinSpawnInterval == 1000
    ensures DefaultTickerSpeed == 100
    ensures PlayerJumpVelocity < 0 && PlayerJumpVelocity == -300
  {
  }
}

=== FILE: decimal.dfy ===
/** Decimal digit strings: how a JavaScript number that holds an integer is rendered by string
    conversion (`${n}`), together with a parser that reads such strings back. */
module Decimal {

  import opened Presence

  predicate IsDigit(c: char) {
    '0' <= c <= '9'
  }

  predicate AllDigits(s: string) {
    forall i :: 0 <= i < |s| ==> IsDigit(s[i])
  }

  function Pow10(k: nat): (p: nat)
    ensures p >= 1
  {
    if k == 0 then 1 else 10 * Pow10(k - 1)
  }

  function DigitChar(d: nat): (c: char)
    requires d < 10
    ensures IsDigit(c)
  {
    "0123456789"[d]
  }

  function DigitValue(c: char): (d: nat)
    requires IsDigit(c)
    ensures d < 10
  {
    (c as int) - ('0' as int)
  }

  lemma DigitRoundTrip(d: nat)
    requires d < 10
    ensures DigitValue(DigitChar(d)) == d
  {
  }

  /** The shortest decimal rendering of `n`: at least one digit, and no leading zero. */
  function NatToString(n: nat): (s: string)
    ensures |s| >= 1 && AllDigits(s)
    ensures |s| > 1 ==> s[0] != '0'
    ensures n > 0 ==> s[0] != '0'
    decreases n
  {
    if n < 10 then [DigitChar(n)] else NatToString(n / 10) + [DigitChar(n % 10)]
  }

  /** The value of a digit string, read most significant digit first. */
  function ParseDigits(s: string): (n: nat)
    requires AllDigits(s)
    ensures n < Pow10(|s|)
  {
    if |s| == 0 then 0 else ParseDigits(s[..|s| - 1]) * 10 + DigitValue(s[|s| - 1])
  }

  /** `n` rendered with exactly `width` digits, padded with leading zeros. */
  function PadDigits(n: nat, width: nat): (s: string)
    requires n < Pow10(width)
    ensures |s| == width && AllDigits(s)
  {
    if width == 0 then [] else PadDigits(n / 10, width - 1) + [DigitChar(n % 10)]
  }

  /** A JavaScript integer rendered by string conversion: an optional minus sign, then digits. */
  function IntToString(i: int): (s: string)
    ensures |s| >= 1
    ensures s[0] == '-' <==> i < 0
  {
    if i < 0 then "-" + NatToString(-i) else NatToString(i)
  }

  /** `IntToString` writes only digits, after a leading minus sign for a negative value. */
  lemma IntToStringChars(i: int)
    ensures var s := IntToString(i);
      forall k :: 0 <= k < |s| ==> IsDigit(s[k]) || (k == 0 && s[k] == '-')
  {
    var s := IntToString(i);
    if i < 0 {
      var t := NatToString(-i);
      assert s == "-" + t;
      assert forall k :: 1 <= k < |s| ==> s[k] == t[k - 1];
    }
  }

  /** Reads back what `IntToString` writes; `Nothing` for anything that is not such a string. */
  function ParseInt(s: string): (r: Maybe<int>)
    ensures r.Just? ==> |s| >= 1
  {
    if |s| == 0 then Nothing
    else if s[0] == '-' then
      if |s| >= 2 && AllDigits(s[1..]) then Just(0 - ParseDigits(s[1..])) else Nothing
    else if AllDigits(s) then Just(ParseDigits(s))
    else Nothing
  }

  lemma {:induction false} ParseNatToString(n: nat)
    ensures ParseDigits(NatToString(n)) == n
    decreases n
  {
    var s := NatToString(n);
    if n < 10 {
      DigitRoundTrip(n);
      assert s[..|s| - 1] == [];
    } else {
      var a := NatToString(n / 10);
      assert s == a + [DigitChar(n % 10)];
      assert s[..|s| - 1] == a;
      ParseNatToString(n / 10);
      DigitRoundTrip(n % 10);
    }
  }

  lemma {:induction false} ParsePadDigits(n: nat, width: nat)
    requires n < Pow10(width)
    ensures ParseDigits(PadDigits(n, width)) == n
    decreases width
  {
    var s := PadDigits(n, width);
    if width == 0 {
    } else {
      var a := PadDigits(n / 10, width - 1);
      assert s == a + [DigitChar(n % 10)];
      assert s[..|s| - 1] == a;
      ParsePadDigits(n / 10, width - 1);
      DigitRoundTrip(n % 10);
    }
  }

  /** Reading a concatenation shifts the left part by the width of the right part. */
  lemma {:induction false} ParseDigitsAppend(a: string, b: string)
    requires AllDigits(a) && AllDigits(b)
    ensures AllDigits(a + b)
    ensures ParseDigits(a + b) == ParseDigits(a) * Pow10(|b|) + ParseDigits(b)
    decreases |b|
  {
    if |b| == 0 {
      assert a + b == a;
    } else {
      var b' := b[..|b| - 1];
      assert (a + b)[..|a + b| - 1] == a + b';
      assert (a + b)[|a + b| - 1] == b[|b| - 1];
      ParseDigitsAppend(a, b');
      assert Pow10(|b|) == Pow10(|b'|) * 10;
      ShiftDigit(ParseDigits(a), Pow10(|b'|), ParseDigits(b'), DigitValue(b[|b| - 1]));
    }
  }

  lemma ShiftDigit(x: int, p: int, y: int, d: int)
    ensures (x * p + y) * 10 + d == x * (p * 10) + (y * 10 + d)
  {
  }

  /** The shape `NatToString` writes: at least one digit, and no leading zero unless the
      string is "0". */
  predicate Canonical(s: string) {
    |s| >= 1 && AllDigits(s) && (|s| > 1 ==> s[0] != '0')
  }

  /** A digit string led by a non-zero digit is worth at least 10^(length - 1). */
  lemma {:induction false} LeadingDigitBound(s: string)
    requires |s| >= 1 && AllDigits(s) && s[0] != '0'
    ensures ParseDigits(s) >= Pow10(|s| - 1)
    decreases |s|
  {
    if |s| > 1 {
      var a := s[..|s| - 1];
      assert a[0] == s[0];
      LeadingDigitBound(a);
      assert ParseDigits(s) >= ParseDigits(a) * 10;
    } else {
      assert s[..0] == [];
    }
  }

  lemma {:induction false} Pow10Monotone(j: nat, k: nat)
    requires j <= k
    ensures Pow10(j) <= Pow10(k)
    decreases k
  {
    if j < k {
      Pow10Monotone(j, k - 1);
    }
  }

  /** A number ending in a digit determines that digit and the number before it. */
  lemma SplitLastDigit(x: nat, d: nat, y: nat, e: nat)
    requires d < 10 && e < 10 && x * 10 + d == y * 10 + e
    ensures x == y && d == e
  {
  }

  /** Two digit strings of equal length and equal value are equal. */
  lemma {:induction false} SameLengthSameValue(a: string, b: string)
    requires AllDigits(a) && AllDigits(b) && |a| == |b|
    requires ParseDigits(a) == ParseDigits(b)
    ensures a == b
    decreases |a|
  {
    if |a| > 0 {
      var a', b' := a[..|a| - 1], b[..|b| - 1];
      var da, db := DigitValue(a[|a| - 1]), DigitValue(b[|b| - 1]);
      assert ParseDigits(a) == ParseDigits(a') * 10 + da;
      assert ParseDigits(b) == ParseDigits(b') * 10 + db;
      SplitLastDigit(ParseDigits(a'), da, ParseDigits(b'), db);
      SameLengthSameValue(a', b');
      assert a[|a| - 1] == b[|b| - 1];
      assert a == a' + [a[|a| - 1]] && b == b' + [b[|b| - 1]];
    }
  }

  /** Among canonical digit strings a longer one is worth more. */
  lemma LongerIsLarger(a: string, b: string)
    requires Canonical(a) && Canonical(b)
    ensures |a| < |b| ==> ParseDigits(a) < ParseDigits(b)
  {
    if |a| < |b| {
      LeadingDigitBound(b);
      Pow10Monotone(|a|, |b| - 1);
    }
  }

  /** A canonical digit string is determined by its value. */
  lemma CanonicalUnique(a: string, b: string)
    requires Canonical(a) && Canonical(b) && ParseDigits(a) == ParseDigits(b)
    ensures a == b
  {
    LongerIsLarger(a, b);
    LongerIsLarger(b, a);
    SameLengthSameValue(a, b);
  }

  /** `NatToString` writes the one canonical digit string of each value. */
  lemma NatToStringIsCanonical(n: nat, s: string)
    requires Canonical(s) && ParseDigits(s) == n
    ensures s == NatToString(n)
  {
    ParseNatToString(n);
    CanonicalUnique(s, NatToString(n));
  }

  /** Numbers below a thousand take at most three digits. */
  lemma NatToStringShort(n: nat)
    requires n < 1000
    ensures |NatToString(n)| <= 3
  {
    if n >= 10 {
      if n >= 100 {
        assert |NatToString(n / 10 / 10)| == 1;
      }
    }
  }

  /** The digits `IntToString` writes are canonical: no padding zeros, after the sign if any. */
  lemma IntToStringCanonical(i: int)
    ensures var s := IntToString(i); (i >= 0 ==> Canonical(s)) && (i < 0 ==> Canonical(s[1..]))
  {
    if i < 0 {
      var t := NatToString(-i);
      assert IntToString(i) == "-" + t;
      SignedCanonical(t);
    } else {
      assert IntToString(i) == NatToString(i);
    }
  }

  /** Dropping the sign of "-" + t leaves t. */
  lemma SignedCanonical(t: string)
    requires Canonical(t)
    ensures Canonical(("-" + t)[1..])
  {
    assert ("-" + t)[1..] == t;
  }

  /** A digit string reads as its value. */
  lemma ParseNonNegative(t: string)
    requires |t| >= 1 && AllDigits(t)
    ensures ParseInt(t) == Just(ParseDigits(t))
  {
    assert IsDigit(t[0]);
  }

  /** A minus sign before a digit string reads as the negated value. */
  lemma ParseNegative(t: string)
    requires |t| >= 1 && AllDigits(t)
    ensures ParseInt("-" + t) == Just(0 - ParseDigits(t))
  {
    var s := "-" + t;
    assert s[0] == '-' && s[1..] == t;
  }

  /** `ParseInt` inverts `IntToString` on every integer. */
  lemma ParseIntToString(i: int)
    ensures ParseInt(IntToString(i)) == Just(i)
  {
    var n: nat := if i < 0 then -i else i;
    var t := NatToString(n);
    ParseNatToString(n);
    ParseNonNegative(t);
    ParseNegative(t);
    assert IntToString(i) == if i < 0 then "-" + t else t;
  }

  /** Rendering is injective: distinct integers are written differently. */
  lemma IntToStringInjective(i: int, j: int)
    requires IntToString(i) == IntToString(j)
    ensures i == j
  {
    ParseIntToString(i);
    ParseIntToString(j);
  }
}

=== FILE: formatters.dfy ===
/** `formatMoney` of src/utils/formatters.js, on integer amounts.

    Assumed: `toLocaleString()` is the en-US rendering (comma every three digits), and
    `toFixed(2)` on `amount / unit` rounds the exact quotient to the nearest hundredth with
    ties upward (the double-precision quotient is not modelled). */
module Formatters {

  import opened Presence
  import opened Decimal

  const Billion: int := 1_000_000_000
  const Million: int := 1_000_000

  /** en-US digit grouping of a non-negative integer: "1,234,567". A comma sits exactly at
      every position that has a multiple of three digits after it, and nowhere else. */
  function Grouped(n: nat): (s: string)
    ensures |s| >= 1 && IsDigit(s[0]) && IsDigit(s[|s| - 1])
    ensures n > 0 ==> s[0] != '0'
    ensures forall i :: 0 <= i < |s| ==> IsDigit(s[i]) || s[i] == ','
    ensures forall i :: 0 <= i < |s| ==> (s[i] == ',' <==> 0 < i && (|s| - i) % 4 == 0)
    decreases n
  {
    if n < 1000 then
      NatToStringShort(n);
      NatToString(n)
    else
      Pow10Facts();
      var g := Grouped(n / 1000);
      var p := PadDigits(n % 1000, 3);
      CommaLayout(g, p);
      g + "," + p
  }

  /** Appending a comma and a three-digit group keeps the comma layout. */
  lemma CommaLayout(g: string, p: string)
    requires |p| == 3 && AllDigits(p) && |g| >= 1
    requires forall i :: 0 <= i < |g| ==> IsDigit(g[i]) || g[i] == ','
    requires forall i :: 0 <= i < |g| ==> (g[i] == ',' <==> 0 < i && (|g| - i) % 4 == 0)
    ensures var s := g + "," + p;
      && (forall i :: 0 <= i < |s| ==> IsDigit(s[i]) || s[i] == ',')
      && (forall i :: 0 <= i < |s| ==> (s[i] == ',' <==> 0 < i && (|s| - i) % 4 == 0))
  {
    var s := g + "," + p;
    forall i | 0 <= i < |s|
      ensures (IsDigit(s[i]) || s[i] == ',') && (s[i] == ',' <==> 0 < i && (|s| - i) % 4 == 0)
    {
      if i < |g| {
        assert s[i] == g[i];
        assert (|s| - i) % 4 == (|g| - i) % 4;
      } else if i == |g| {
        assert s[i] == ',';
      } else {
        assert s[i] == p[i - |g| - 1];
      }
    }
  }

  /** The leading group holds one to three digits: with commas every four characters from
      the right, a length that is a multiple of four would leave four digits in front. */
  lemma {:induction false} GroupedLeadGroup(n: nat)
    ensures |Grouped(n)| % 4 != 0
    decreases n
  {
    if n < 1000 {
      NatToStringShort(n);
    } else {
      Pow10Facts();
      GroupedLeadGroup(n / 1000);
      assert |Grouped(n)| == |Grouped(n / 1000)| + 4;
    }
  }

  /** `toLocaleString()` of an integer: grouped digits, led by '-' when negative. */
  function LocaleString(a: int): (s: string)
    ensures |s| >= 1 && IsDigit(s[|s| - 1])
    ensures s[0] == '-' <==> a < 0
    ensures forall i :: 0 <= i < |s| ==> IsDigit(s[i]) || s[i] == ',' || (i == 0 && s[i] == '-')
  {
    if a < 0 then "-" + Grouped(-a) else Grouped(a)
  }

  /** The count of hundredths `toFixed(2)` shows for `amount / unit`: the nearest one, ties up. */
  function RoundHundredths(amount: nat, unit: nat): (h: nat)
    requires unit > 0 && unit % 200 == 0
    ensures h * (unit / 100) <= amount + unit / 200 < (h + 1) * (unit / 100)
  {
    (amount + unit / 200) / (unit / 100)
  }

  /** `toFixed(2)` of `h / 100`: whole part, a point, then exactly two digits. */
  function Fixed2(h: nat): (s: string)
    ensures |s| >= 4 && s[|s| - 3] == '.'
    ensures forall i :: 0 <= i < |s| ==> IsDigit(s[i]) || s[i] == '.'
  {
    Pow10Facts();
    var w := NatToString(h / 100);
    var f := PadDigits(h % 100, 2);
    assert forall i :: 0 <= i < |w + "." + f| ==>
      (w + "." + f)[i] == (if i < |w| then w[i] else if i == |w| then '.' else f[i - |w| - 1]);
    w + "." + f
  }

  /** The whole part `toFixed(2)` writes is the canonical decimal form of the whole number of
      units: no padding zeros. */
  lemma Fixed2Canonical(h: nat)
    ensures var s := Fixed2(h); Canonical(s[..|s| - 3]) && ParseDigits(s[..|s| - 3]) == h / 100
  {
    Pow10Facts();
    var w := NatToString(h / 100);
    var f := PadDigits(h % 100, 2);
    var s := Fixed2(h);
    assert s == w + "." + f;
    assert s[..|s| - 3] == w;
    ParseNatToString(h / 100);
  }

  /** The characters formatMoney can write. */
  predicate MoneyChar(c: char) {
    c == '$' || IsDigit(c) || c == ',' || c == '.' || c == '-' || c == 'B' || c == 'M'
  }

  /** formatMoney: billions and millions to two decimals with a suffix, smaller amounts grouped. */
  function FormatMoney(amount: int): (r: string)
    ensures |r| >= 2 && r[0] == '$'
    ensures r[|r| - 1] == 'B' <==> amount >= Billion
    ensures r[|r| - 1] == 'M' <==> Million <= amount < Billion
    ensures amount < Million <==> IsDigit(r[|r| - 1])
    ensures forall i :: 0 <= i < |r| ==> MoneyChar(r[i])
  {
    if amount >= Billion then "$" + Fixed2(RoundHundredths(amount, Billion)) + "B"
    else if amount >= Million then "$" + Fixed2(RoundHundredths(amount, Million)) + "M"
    else "$" + LocaleString(amount)
  }

  /** Below a million the text after "$" is the en-US grouping of the amount. */
  lemma FormatMoneySmallGrouped(amount: int)
    ensures 0 <= amount < Million ==> FormatMoney(amount)[1..] == Grouped(amount)
  {
    if 0 <= amount < Million {
      assert FormatMoney(amount) == "$" + Grouped(amount);
    }
  }

  /** In the million and billion branches the figure between "$" and ".dd" plus suffix is the
      canonical form of the whole number of units shown. */
  lemma FormatMoneyScaledWhole(amount: int)
    ensures var r := FormatMoney(amount);
      amount >= Million ==>
        var unit := if amount >= Billion then Billion else Million;
        |r| >= 6 && Canonical(r[1..|r| - 4])
        && ParseDigits(r[1..|r| - 4]) == RoundHundredths(amount, unit) / 100
  {
    if amount >= Billion {
      var h := RoundHundredths(amount, Billion);
      StripSuffixed(Fixed2(h), 'B');
      Fixed2Canonical(h);
    } else if amount >= Million {
      var h := RoundHundredths(amount, Million);
      StripSuffixed(Fixed2(h), 'M');
      Fixed2Canonical(h);
    }
  }

  /** Between the "$" and the ".dd" plus suffix of "$" + f + suffix lies f's whole part. */
  lemma StripSuffixed(f: string, suffix: char)
    requires |f| >= 4
    ensures var r := "$" + f + [suffix]; |r| >= 6 && r[1..|r| - 4] == f[..|f| - 3]
  {
    var r := "$" + f + [suffix];
    assert r[1..|r| - 1] == f;
  }

  // ---------------------------------------------------------------------------------------
  // Reading a formatted amount back

  /** What a reader learns from a formatted amount: an exact integer, or a count of
      hundredths of the unit named by the suffix. */
  datatype Reading = Exact(amount: int) | Scaled(hundredths: nat, suffix: char)

  /** Drops the grouping separators. */
  function RemoveCommas(s: string): (t: string)
    ensures |t| <= |s|
  {
    if |s| == 0 then [] else (if s[0] == ',' then [] else [s[0]]) + RemoveCommas(s[1..])
  }

  function ReadGrouped(s: string): Maybe<nat> {
    var d := RemoveCommas(s);
    if |d| >= 1 && AllDigits(d) then Just(ParseDigits(d)) else Nothing
  }

  function ReadLocale(s: string): Maybe<int> {
    if |s| >= 1 && s[0] == '-' then
      match ReadGrouped(s[1..])
      case Just(n) => Just(0 - n)
      case Nothing => Nothing
    else
      match ReadGrouped(s)
      case Just(n) => Just(n as int)
      case Nothing => Nothing
  }

  function ReadFixed2(s: string): Maybe<nat> {
    if |s| >= 4 && s[|s| - 3] == '.' && AllDigits(s[..|s| - 3]) && AllDigits(s[|s| - 2..]) then
      Just(ParseDigits(s[..|s| - 3]) * 100 + ParseDigits(s[|s| - 2..]))
    else Nothing
  }

  /** Reads a string of the shape formatMoney writes. */
  function ReadMoney(s: string): Maybe<Reading> {
    if |s| < 2 || s[0] != '$' then Nothing
    else if s[|s| - 1] == 'B' || s[|s| - 1] == 'M' then
      match ReadFixed2(s[1..|s| - 1])
      case Just(h) => Just(Scaled(h, s[|s| - 1]))
      case Nothing => Nothing
    else
      match ReadLocale(s[1..])
      case Just(a) => Just(Exact(a))
      case Nothing => Nothing
  }

  lemma {:induction false} RemoveCommasAppend(a: string, b: string)
    ensures RemoveCommas(a + b) == RemoveCommas(a) + RemoveCommas(b)
    decreases |a|
  {
    if |a| == 0 {
      assert a + b == b;
    } else {
      assert (a + b)[0] == a[0];
      assert (a + b)[1..] == a[1..] + b;
      RemoveCommasAppend(a[1..], b);
    }
  }

  lemma {:induction false} RemoveCommasOfDigits(s: string)
    requires AllDigits(s)
    ensures RemoveCommas(s) == s
    decreases |s|
  {
    if |s| > 0 {
      assert s == [s[0]] + s[1..];
      RemoveCommasOfDigits(s[1..]);
    }
  }

  lemma Pow10Facts()
    ensures Pow10(2) == 100 && Pow10(3) == 1000
  {
    assert Pow10(1) == 10;
  }

  /** Removing the separators from `g + "," + p` where `p` is all digits. */
  lemma RemoveCommasGroup(g: string, p: string)
    requires AllDigits(p)
    ensures RemoveCommas(g + "," + p) == RemoveCommas(g) + p
  {
    var cp := "," + p;
    assert g + "," + p == g + cp;
    RemoveCommasAppend(g, cp);
    assert cp[0] == ',' && cp[1..] == p;
    assert RemoveCommas(cp) == RemoveCommas(p);
    RemoveCommasOfDigits(p);
  }

  /** Removing the separators from a grouped rendering leaves exactly the plain decimal
      rendering of `n`. */
  lemma GroupedDigits(n: nat)
    ensures AllDigits(RemoveCommas(Grouped(n)))
    ensures ParseDigits(RemoveCommas(Grouped(n))) == n
    ensures RemoveCommas(Grouped(n)) == NatToString(n)
  {
    GroupedValue(n);
    var g := Grouped(n);
    var d := RemoveCommas(g);
    if n < 1000 {
      RemoveCommasOfDigits(g);
    } else {
      assert g[0] != ',';
      assert d == [g[0]] + RemoveCommas(g[1..]);
      assert Canonical(d);
      NatToStringIsCanonical(n, d);
    }
  }

  lemma {:induction false} GroupedValue(n: nat)
    ensures AllDigits(RemoveCommas(Grouped(n)))
    ensures ParseDigits(RemoveCommas(Grouped(n))) == n
    decreases n
  {
    if n < 1000 {
      RemoveCommasOfDigits(NatToString(n));
      ParseNatToString(n);
    } else {
      var q, r := n / 1000, n % 1000;
      Pow10Facts();
      var g := Grouped(q);
      var p := PadDigits(r, 3);
      assert Grouped(n) == g + "," + p;
      RemoveCommasGroup(g, p);
      var rg := RemoveCommas(g);
      GroupedValue(q);
      ParseDigitsAppend(rg, p);
      ParsePadDigits(r, 3);
      assert ParseDigits(rg + p) == q * 1000 + r;
    }
  }

  lemma ReadLocaleString(a: int)
    ensures ReadLocale(LocaleString(a)) == Just(a)
  {
    var s := LocaleString(a);
    if a < 0 {
      assert s[1..] == Grouped(-a);
      GroupedValue(-a);
    } else {
      GroupedValue(a);
    }
  }

  lemma ReadFixed2Back(h: nat)
    ensures ReadFixed2(Fixed2(h)) == Just(h)
  {
    Pow10Facts();
    var w := NatToString(h / 100);
    var f := PadDigits(h % 100, 2);
    assert Fixed2(h) == w + "." + f;
    ReadFixed2Of(w, f);
    ParseNatToString(h / 100);
    ParsePadDigits(h % 100, 2);
  }

  /** A whole part, a point and two digits read back as hundredths. */
  lemma ReadFixed2Of(w: string, f: string)
    requires |w| >= 1 && AllDigits(w) && |f| == 2 && AllDigits(f)
    ensures ReadFixed2(w + "." + f) == Just(ParseDigits(w) * 100 + ParseDigits(f))
  {
    var s := w + "." + f;
    assert s[|s| - 3] == '.';
    assert s[..|s| - 3] == w;
    assert s[|s| - 2..] == f;
  }

  /** What a reader of the formatted amount should learn: the amount itself below a
      million, else its nearest hundredth of a million or a billion with that suffix. */
  function Shown(amount: int): Reading {
    if amount >= Billion then Scaled(RoundHundredths(amount, Billion), 'B')
    else if amount >= Million then Scaled(RoundHundredths(amount, Million), 'M')
    else Exact(amount)
  }

  /** Round trip: every formatted amount reads back as what it should show. */
  lemma ReadFormatMoney(amount: int)
    ensures ReadMoney(FormatMoney(amount)) == Just(Shown(amount))
  {
    var r := FormatMoney(amount);
    if amount >= Billion {
      var h := RoundHundredths(amount, Billion);
      assert r[1..|r| - 1] == Fixed2(h);
      ReadFixed2Back(h);
    } else if amount >= Million {
      var h := RoundHundredths(amount, Million);
      assert r[1..|r| - 1] == Fixed2(h);
      ReadFixed2Back(h);
    } else {
      assert r[1..] == LocaleString(amount);
      ReadLocaleString(amount);
    }
  }

  /** Amounts below a thousand are shown bare: 999 is "$999". */
  lemma FormatMoneySmallExample()
    ensures FormatMoney(999) == "$999"
  {
    assert NatToString(9) == "9";
    assert NatToString(99) == NatToString(9) + "9";
    assert NatToString(999) == NatToString(99) + "9";
  }

  /** One and a half million is shown as "$1.50M". */
  lemma FormatMoneyMillionExample()
    ensures FormatMoney(1_500_000) == "$1.50M"
  {
    assert RoundHundredths(1_500_000, Million) == 150;
    assert NatToString(1) == "1";
    assert PadDigits(5, 1) == PadDigits(0, 0) + "5";
    assert PadDigits(50, 2) == "50";
    assert Fixed2(150) == "1.50";
  }

  /** Two billion is shown as "$2.00B". */
  lemma FormatMoneyBillionExample()
    ensures FormatMoney(2_000_000_000) == "$2.00B"
  {
    assert RoundHundredths(2_000_000_000, Billion) == 200;
    assert NatToString(2) == "2";
    assert PadDigits(0, 1) == PadDigits(0, 0) + "0";
    assert PadDigits(0, 2) == "00";
    assert Fixed2(200) == "2.00";
  }
}

=== FILE: game.dfy ===
/** The per-run state machine of GameScene (src/scenes/GameScene.js) with every engine call
    stripped away: physics overlaps, timer callbacks, frames and taps arrive as events, and
    random draws and the clock arrive as event fields. */
module Game {

  import opened Presence
  import opened Config
  import Decimal
  import Formatters

  /** Delay between reaching the goal and the summary screen, in milliseconds. */
  const WinDelay: int := 1000
  /** Delay between a boss hit and the continue prompt or the summary screen. */
  const RespawnDelay: int := 2000
  /** How long the special ticker banner stays up. */
  const SpecialTickerDuration: int := 3000
  /** Coins spawn at least this far from the top and bottom edges. */
  const SpawnMargin: int := 50

  const InvestmentMessage: string := "Good Investment! Multiplier Doubled!"
  const PromotionMessage: string := "Promotion! Multiplier Doubled!"

  /** Values the game reads from GAME_CONSTANTS that src/config.js does not define:
      STARTING_LIVES and SPECIAL_COIN_CHANCE (one-in-N per coin kind). */
  datatype Params = Params(startingLives: int, specialChance1: int, specialChance2: int)

  predicate ValidParams(p: Params) {
    p.startingLives >= 1 && p.specialChance1 >= 1 && p.specialChance2 >= 1
  }

  function SpecialChance(p: Params, kind: CoinKind): int {
    match kind
    case Coin1 => p.specialChance1
    case Coin2 => p.specialChance2
  }

  /** The data a coin sprite carries: its kind (texture key), vertical position, value and
      special flag. */
  datatype Coin = Coin(kind: CoinKind, y: int, value: int, special: bool)

  /** The ticker's logical state; its pixel position is engine geometry and is not kept. */
  datatype Ticker = Ticker(showingSpecial: bool, message: string, expires: int, speed: int)

  /** Where the run is: live play, or one of the delayed callbacks pending (with the time it
      is due), or the "Tap to proceed" prompt after a survived boss hit. */
  datatype Phase = Playing | WinPending(winDue: int) | HitPending(hitDue: int) | AwaitingTap

  /** One run of GameScene. Live coins are keyed by the spawn count at which they appeared. */
  datatype RunState = RunState(
    startFlap: bool,
    lives: int,
    wealth: int,
    coinsCollected: int,
    multiplier: int,
    highestMultiplier: int,
    spawnCount: nat,
    coins: map<nat, Coin>,
    ticker: Ticker,
    phase: Phase)

  /** The data object passed to `init`; an absent field is `undefined` there. */
  datatype InitPayload = InitPayload(
    startFlap: bool,
    lives: Maybe<int>,
    wealth: Maybe<int>,
    coinsCollected: Maybe<int>,
    multiplier: Maybe<int>,
    highestMultiplier: Maybe<int>)

  /** The object handed to GameOverScene. */
  datatype Summary = Summary(
    coins: int, wealth: int, highestMultiplier: int, goalReached: bool, goal: int, lives: int)

  /** After an event the scene either keeps running or has started the summary screen. */
  datatype Outcome = Running(state: RunState) | Finished(summary: Summary)

  datatype Event =
    | SpawnCoin(height: int, y: int, kind: CoinKind, specialDraw: int)
    | CoinOffscreen(handle: nat)
    | CollectCoin(handle: nat, now: int)
    | HitBoss(now: int)
    | TimerFired(now: int)
    | Tap
    | Frame(now: int, playerY: int, height: int)

  /** What the engine guarantees about an event's random draws: `Between(50, height - 50)`
      for the position and `integerInRange(1, chance)` for the special draw. */
  predicate Admissible(p: Params, e: Event) {
    e.SpawnCoin? ==>
      SpawnMargin <= e.y <= e.height - SpawnMargin && 1 <= e.specialDraw <= SpecialChance(p, e.kind)
  }

  /** Amount still missing to the goal, never negative. */
  function ToGoal(goal: int, wealth: int): (t: int)
    ensures t >= 0
    ensures t == 0 <==> wealth >= goal
    ensures t > 0 ==> wealth + t == goal
  {
    if goal - wealth > 0 then goal - wealth else 0
  }

  /** `init` followed by the ticker set-up of `create`: restores each stat from the payload
      when present, otherwise starts from the defaults; always starts a fresh spawn cycle with
      no coins and no special banner. */
  function Init(p: Params, d: InitPayload): (s: RunState)
    ensures s.lives == (if d.lives.Just? then d.lives.value else p.startingLives)
    ensures s.wealth == (if d.wealth.Just? then d.wealth.value else 0)
    ensures s.coinsCollected == (if d.coinsCollected.Just? then d.coinsCollected.value else 0)
    ensures s.multiplier == (if d.multiplier.Just? then d.multiplier.value else 1)
    ensures s.highestMultiplier == (if d.highestMultiplier.Just? then d.highestMultiplier.value else 1)
    ensures s.startFlap == d.startFlap
    ensures s.spawnCount == 0 && s.coins == map[]
    ensures !s.ticker.showingSpecial && s.ticker.message == "" && s.ticker.expires == 0
    ensures s.ticker.speed == DefaultTickerSpeed
    ensures s.phase == Playing
  {
    RunState(
      d.startFlap,
      d.lives.Or(p.startingLives),
      d.wealth.Or(0),
      d.coinsCollected.Or(0),
      d.multiplier.Or(1),
      d.highestMultiplier.Or(1),
      0,
      map[],
      Ticker(false, "", 0, DefaultTickerSpeed),
      Playing)
  }

  /** The payload the title screen and the summary screen start a run with. */
  const FreshStart: InitPayload := InitPayload(true, Nothing, Nothing, Nothing, Nothing, Nothing)

  /** The payload `hitBoss` restarts the scene with: every stat of the current run. */
  function RestartPayload(s: RunState): (d: InitPayload)
    ensures d.startFlap
    ensures d.lives == Just(s.lives) && d.wealth == Just(s.wealth)
    ensures d.coinsCollected == Just(s.coinsCollected)
    ensures d.multiplier == Just(s.multiplier) && d.highestMultiplier == Just(s.highestMultiplier)
  {
    InitPayload(true, Just(s.lives), Just(s.wealth), Just(s.coinsCollected),
                Just(s.multiplier), Just(s.highestMultiplier))
  }

  /** `spawnCoin`: counts the spawn and adds one coin, special exactly when the draw is 1. */
  function SpawnCoinStep(p: Params, s: RunState, height: int, y: int, kind: CoinKind, specialDraw: int)
    : (s': RunState)
    requires SpawnMargin <= y <= height - SpawnMargin
    requires 1 <= specialDraw <= SpecialChance(p, kind)
    ensures s'.spawnCount == s.spawnCount + 1
    ensures s'.spawnCount in s'.coins
    ensures var c := s'.coins[s'.spawnCount];
      && c.kind == kind && c.value == CoinValue(kind) && c.value > 0
      && (c.special <==> specialDraw == 1)
      && SpawnMargin <= c.y <= height - SpawnMargin
    ensures forall h :: h in s.coins && h != s'.spawnCount ==> h in s'.coins && s'.coins[h] == s.coins[h]
    ensures s'.coins.Keys == s.coins.Keys + {s'.spawnCount}
    ensures s'.(spawnCount := s.spawnCount, coins := s.coins) == s
  {
    var h := s.spawnCount + 1;
    s.(spawnCount := h, coins := s.coins[h := Coin(kind, y, CoinValue(kind), specialDraw == 1)])
  }

  /** The banner a special coin of the given kind raises. */
  function SpecialMessage(kind: CoinKind): (m: string)
    ensures kind == Coin1 ==> m == InvestmentMessage
    ensures kind != Coin1 ==> m == PromotionMessage
  {
    if kind == Coin1 then InvestmentMessage else PromotionMessage
  }

  /** `collectCoin`: a special coin first doubles the multiplier and raises its banner for
      three seconds; then the coin is removed, counted, and credited at the (possibly doubled)
      multiplier; reaching the goal freezes the ticker and schedules the victory summary.
      A handle that names no live coin (one already collected or cleaned up) changes nothing. */
  function CollectCoinStep(s: RunState, handle: nat, now: int): (s': RunState)
    ensures handle !in s.coins ==> s' == s
    ensures handle in s.coins ==>
      var c := s.coins[handle];
      var m := if c.special then 2 * s.multiplier else s.multiplier;
      && s'.coins == s.coins - {handle}
      && s'.coinsCollected == s.coinsCollected + 1
      && s'.multiplier == m
      && s'.wealth == s.wealth + c.value * m
      && (c.special ==> s'.ticker.showingSpecial && s'.ticker.message == SpecialMessage(c.kind)
                        && s'.ticker.expires == now + SpecialTickerDuration)
      && (!c.special ==> s'.ticker.(speed := s.ticker.speed) == s.ticker)
      && (s'.wealth >= Goal ==> s'.ticker.speed == 0 && s'.phase == WinPending(now + WinDelay))
      && (s'.wealth < Goal ==> s'.ticker.speed == s.ticker.speed && s'.phase == s.phase)
      && s'.lives == s.lives && s'.highestMultiplier == s.highestMultiplier
      && s'.spawnCount == s.spawnCount && s'.startFlap == s.startFlap
  {
    if handle !in s.coins then s
    else
      var c := s.coins[handle];
      var ticker := if c.special
        then s.ticker.(showingSpecial := true, message := SpecialMessage(c.kind),
                       expires := now + SpecialTickerDuration)
        else s.ticker;
      var m := if c.special then 2 * s.multiplier else s.multiplier;
      var w := s.wealth + c.value * m;
      var s1 := s.(coins := s.coins - {handle}, coinsCollected := s.coinsCollected + 1,
                   multiplier := m, wealth := w, ticker := ticker);
      if w >= Goal then s1.(ticker := ticker.(speed := 0), phase := WinPending(now + WinDelay))
      else s1
  }

  /** `hitBoss`: freezes the ticker, costs exactly one life and schedules the continuation. */
  function HitBossStep(s: RunState, now: int): (s': RunState)
    ensures s'.lives == s.lives - 1
    ensures s'.ticker.speed == 0 && s'.phase == HitPending(now + RespawnDelay)
    ensures s'.(lives := s.lives, ticker := s.ticker, phase := s.phase) == s
    ensures s'.ticker.(speed := s.ticker.speed) == s.ticker
  {
    s.(lives := s.lives - 1, ticker := s.ticker.(speed := 0), phase := HitPending(now + RespawnDelay))
  }

  /** The payload every summary shares; only `goalReached` and `lives` vary by cause. */
  function SummaryOf(s: RunState, goalReached: bool, lives: int): (sum: Summary)
    ensures sum.coins == s.coinsCollected && sum.wealth == s.wealth
    ensures sum.highestMultiplier == s.highestMultiplier && sum.goal == Goal
    ensures sum.goalReached == goalReached && sum.lives == lives
  {
    Summary(s.coinsCollected, s.wealth, s.highestMultiplier, goalReached, Goal, lives)
  }

  /** The delayed callbacks of `collectCoin` (1000 ms) and `hitBoss` (2000 ms), run once due.
      After a hit with lives left the highest multiplier is refreshed and the prompt shown;
      with none left the defeat summary starts. */
  function TimerStep(s: RunState, now: int): (o: Outcome)
    ensures s.phase.WinPending? && now >= s.phase.winDue ==> o == Finished(SummaryOf(s, true, s.lives))
    ensures s.phase.HitPending? && now >= s.phase.hitDue && s.lives > 0 ==>
      o == Running(s.(highestMultiplier := if s.multiplier > s.highestMultiplier then s.multiplier
                                           else s.highestMultiplier,
                      phase := AwaitingTap))
    ensures s.phase.HitPending? && now >= s.phase.hitDue && s.lives <= 0 ==>
      o == Finished(SummaryOf(s, false, s.lives))
    ensures s.phase.Playing? || s.phase.AwaitingTap? ==> o == Running(s)
    ensures s.phase.WinPending? && now < s.phase.winDue ==> o == Running(s)
    ensures s.phase.HitPending? && now < s.phase.hitDue ==> o == Running(s)
  {
    match s.phase
    case WinPending(due) =>
      if now >= due then Finished(SummaryOf(s, true, s.lives)) else Running(s)
    case HitPending(due) =>
      if now < due then Running(s)
      else if s.lives > 0 then
        var hm := if s.multiplier > s.highestMultiplier then s.multiplier else s.highestMultiplier;
        Running(s.(highestMultiplier := hm, phase := AwaitingTap))
      else Finished(SummaryOf(s, false, s.lives))
    case _ => Running(s)
  }

  /** The "Tap to proceed" handler: restarts the scene keeping every stat. Taps at other
      times only flap the player, which changes no modelled state. */
  function TapStep(p: Params, s: RunState): (s': RunState)
    ensures s.phase.AwaitingTap? ==> s' == Init(p, RestartPayload(s))
    ensures !s.phase.AwaitingTap? ==> s' == s
  {
    if s.phase.AwaitingTap? then Init(p, RestartPayload(s)) else s
  }

  /** The logic of `update`: leaving the screen vertically ends the run at once with no lives
      left, whatever the count was; otherwise an expired special banner is taken down and the
      ticker speed restored. */
  function FrameStep(s: RunState, now: int, playerY: int, height: int): (o: Outcome)
    ensures playerY > height || playerY < 0 ==> o == Finished(SummaryOf(s, false, 0))
    ensures 0 <= playerY <= height ==> o.Running?
    ensures 0 <= playerY <= height && s.ticker.showingSpecial && now > s.ticker.expires ==>
      o.state == s.(ticker := s.ticker.(showingSpecial := false, speed := DefaultTickerSpeed))
    ensures 0 <= playerY <= height && !(s.ticker.showingSpecial && now > s.ticker.expires) ==>
      o.state == s
  {
    if playerY > height || playerY < 0 then Finished(SummaryOf(s, false, 0))
    else if s.ticker.showingSpecial && now > s.ticker.expires then
      Running(s.(ticker := s.ticker.(showingSpecial := false, speed := DefaultTickerSpeed)))
    else Running(s)
  }

  /** One event. Spawning, collecting and boss hits need the physics world and timers running,
      so they act only in live play; frames and off-screen cleanup act in every phase. */
  function Step(p: Params, s: RunState, e: Event): (o: Outcome)
    requires Admissible(p, e)
    ensures !s.phase.Playing? && (e.SpawnCoin? || e.CollectCoin? || e.HitBoss?) ==> o == Running(s)
    ensures e.CoinOffscreen? ==> o == Running(s.(coins := s.coins - {e.handle}))
    ensures e.Tap? && !s.phase.AwaitingTap? ==> o == Running(s)
    ensures o.Finished? ==> e.TimerFired? || e.Frame?
    ensures o.Finished? && o.summary.goalReached ==> s.phase.WinPending?
  {
    match e
    case SpawnCoin(height, y, kind, draw) =>
      if s.phase.Playing? then Running(SpawnCoinStep(p, s, height, y, kind, draw)) else Running(s)
    case CoinOffscreen(handle) => Running(s.(coins := s.coins - {handle}))
    case CollectCoin(handle, now) =>
      if s.phase.Playing? then Running(CollectCoinStep(s, handle, now)) else Running(s)
    case HitBoss(now) =>
      if s.phase.Playing? then Running(HitBossStep(s, now)) else Running(s)
    case TimerFired(now) => TimerStep(s, now)
    case Tap => Running(TapStep(p, s))
    case Frame(now, playerY, height) => FrameStep(s, now, playerY, height)
  }

  /** A multiplier as the ticker and the summary print it; the model's multipliers are whole,
      so `Number.isInteger` always holds and the integer form is printed. */
  function MultiplierText(m: int): (t: string)
    ensures Decimal.ParseInt(t) == Just(m)
    ensures m >= 0 ==> Decimal.Canonical(t)
    ensures '•' !in t
  {
    Decimal.ParseIntToString(m);
    Decimal.IntToStringCanonical(m);
    NoBulletInInt(m);
    Decimal.IntToString(m)
  }

  // ---------------------------------------------------------------------------------------
  // The ticker's stats line

  const TickerHead: string := "VIKTOR "
  const WealthField: string := " Wealth: "
  const ToGoalField: string := " To Goal: "
  const CoinsField: string := " Coins: "
  const MultiplierField: string := " Multiplier: x"

  /** The line `generateTickerString` builds from four rendered values, written field by
      field: each field but the last ends in a space before its bullet. */
  function TickerLine(wealth: string, toGoal: string, coins: string, multiplier: string): string {
    var f1 := WealthField + wealth + " ";
    var f2 := ToGoalField + toGoal + " ";
    var f3 := CoinsField + coins + " ";
    TickerHead + "•" + (f1 + "•" + (f2 + "•" + (f3 + "•" + (MultiplierField + multiplier))))
  }

  /** What a reader of the stats line learns. */
  datatype TickerStats = TickerStats(
    wealth: Formatters.Reading, toGoal: Formatters.Reading, coins: int, multiplier: int)

  /** Cuts a text at every occurrence of `sep`. */
  function SplitAt(t: string, sep: char): (r: seq<string>)
    ensures |r| >= 1
    decreases |t|
  {
    if |t| == 0 then [[]]
    else
      var rest := SplitAt(t[1..], sep);
      if t[0] == sep then [[]] + rest else [[t[0]] + rest[0]] + rest[1..]
  }

  /** The text between `tag` and a final space. */
  function Inner(f: string, tag: string): Maybe<string> {
    if |f| > |tag| && f[..|tag|] == tag && f[|f| - 1] == ' ' then Just(f[|tag|..|f| - 1])
    else Nothing
  }

  /** The text after `tag`. */
  function After(f: string, tag: string): Maybe<string> {
    if |f| >= |tag| && f[..|tag|] == tag then Just(f[|tag|..]) else Nothing
  }

  /** Reads a stats line: five fields separated by bullets, the money fields read as
      formatMoney output and the counts as integers. */
  function ReadTicker(t: string): Maybe<TickerStats> {
    var f := SplitAt(t, '•');
    if |f| != 5 || f[0] != TickerHead then Nothing
    else
      var w := Inner(f[1], WealthField);
      var g := Inner(f[2], ToGoalField);
      var c := After(f[3], CoinsField);
      var m := After(f[4], MultiplierField);
      if w.Nothing? || g.Nothing? || c.Nothing? || m.Nothing? then Nothing
      else if |c.value| == 0 || c.value[|c.value| - 1] != ' ' then Nothing
      else
        var rw := Formatters.ReadMoney(w.value);
        var rg := Formatters.ReadMoney(g.value);
        var rc := Decimal.ParseInt(c.value[..|c.value| - 1]);
        var rm := Decimal.ParseInt(m.value);
        if rw.Just? && rg.Just? && rc.Just? && rm.Just? then
          Just(TickerStats(rw.value, rg.value, rc.value, rm.value))
        else Nothing
  }

  lemma {:induction false} SplitPrefix(a: string, b: string, sep: char)
    requires sep !in a
    ensures SplitAt(a + b, sep) == [a + SplitAt(b, sep)[0]] + SplitAt(b, sep)[1..]
    decreases |a|
  {
    if |a| == 0 {
      var r := SplitAt(b, sep);
      assert a + b == b && a + r[0] == r[0];
      assert r == [r[0]] + r[1..];
    } else {
      assert (a + b)[0] == a[0];
      assert (a + b)[1..] == a[1..] + b;
      SplitPrefix(a[1..], b, sep);
      var rest := SplitAt(a[1..] + b, sep);
      assert rest[0] == a[1..] + SplitAt(b, sep)[0];
      assert [a[0]] + rest[0] == a + SplitAt(b, sep)[0];
    }
  }

  /** A field free of the separator comes off the front of the text whole. */
  lemma SplitField(a: string, b: string, sep: char)
    requires sep !in a
    ensures SplitAt(a + [sep] + b, sep) == [a] + SplitAt(b, sep)
  {
    SplitPrefix(a, [sep] + b, sep);
    assert a + [sep] + b == a + ([sep] + b);
    assert ([sep] + b)[1..] == b;
    assert a + [] == a;
  }

  lemma SplitWhole(a: string, sep: char)
    requires sep !in a
    ensures SplitAt(a, sep) == [a]
  {
    SplitPrefix(a, [], sep);
    assert a + [] == a;
  }

  /** The stats line splits into its five labelled fields whenever the rendered values hold
      no bullet. */
  lemma TickerLineFields(w: string, g: string, c: string, m: string)
    requires '•' !in w && '•' !in g && '•' !in c && '•' !in m
    ensures SplitAt(TickerLine(w, g, c, m), '•') ==
      [TickerHead, WealthField + w + " ", ToGoalField + g + " ", CoinsField + c + " ", MultiplierField + m]
  {
    var f1, f2, f3, f4 := WealthField + w + " ", ToGoalField + g + " ", CoinsField + c + " ", MultiplierField + m;
    assert '•' !in f1 && '•' !in f2 && '•' !in f3 && '•' !in f4 && '•' !in TickerHead;
    SplitField(TickerHead, f1 + ['•'] + (f2 + ['•'] + (f3 + ['•'] + f4)), '•');
    SplitField(f1, f2 + ['•'] + (f3 + ['•'] + f4), '•');
    SplitField(f2, f3 + ['•'] + f4, '•');
    SplitField(f3, f4, '•');
    SplitWhole(f4, '•');
  }

  /** Reading a stats line gives back the readings of its four rendered values. */
  lemma ReadTickerLine(w: string, g: string, c: string, m: string)
    requires '•' !in w && '•' !in g && '•' !in c && '•' !in m
    requires Formatters.ReadMoney(w).Just? && Formatters.ReadMoney(g).Just?
    requires Decimal.ParseInt(c).Just? && Decimal.ParseInt(m).Just?
    ensures ReadTicker(TickerLine(w, g, c, m)) == Just(TickerStats(
      Formatters.ReadMoney(w).value, Formatters.ReadMoney(g).value,
      Decimal.ParseInt(c).value, Decimal.ParseInt(m).value))
  {
    TickerLineFields(w, g, c, m);
    InnerOf(WealthField, w);
    InnerOf(ToGoalField, g);
    assert CoinsField + c + " " == CoinsField + (c + " ");
    AfterOf(CoinsField, c + " ");
    assert |c + " "| == |c| + 1 && (c + " ")[|c|] == ' ' && (c + " ")[..|c|] == c;
    AfterOf(MultiplierField, m);
  }

  lemma InnerOf(tag: string, x: string)
    ensures Inner(tag + x + " ", tag) == Just(x)
  {
    var f := tag + x + " ";
    assert f[..|tag|] == tag && f[|tag|..|f| - 1] == x;
  }

  lemma AfterOf(tag: string, x: string)
    ensures After(tag + x, tag) == Just(x)
  {
    var f := tag + x;
    assert f[..|tag|] == tag && f[|tag|..] == x;
  }

  lemma NoBulletInMoney(a: int)
    ensures '•' !in Formatters.FormatMoney(a)
  {
    var r := Formatters.FormatMoney(a);
    assert forall i :: 0 <= i < |r| ==> r[i] != '•';
  }

  lemma NoBulletInInt(n: int)
    ensures '•' !in Decimal.IntToString(n)
  {
    var r := Decimal.IntToString(n);
    Decimal.IntToStringChars(n);
    assert forall i :: 0 <= i < |r| ==> r[i] != '•';
  }

  /** `generateTickerString`: the stats line reads back as the run's wealth, the clamped
      amount to the goal, the coin count and the whole multiplier. */
  function DefaultTickerString(s: RunState): (t: string)
    ensures ReadTicker(t) == Just(TickerStats(
      Formatters.Shown(s.wealth), Formatters.Shown(ToGoal(Goal, s.wealth)),
      s.coinsCollected, s.multiplier))
  {
    var w := Formatters.FormatMoney(s.wealth);
    var g := Formatters.FormatMoney(ToGoal(Goal, s.wealth));
    var c := Decimal.IntToString(s.coinsCollected);
    var m := MultiplierText(s.multiplier);
    NoBulletInMoney(s.wealth);
    NoBulletInMoney(ToGoal(Goal, s.wealth));
    NoBulletInInt(s.coinsCollected);
    Formatters.ReadFormatMoney(s.wealth);
    Formatters.ReadFormatMoney(ToGoal(Goal, s.wealth));
    Decimal.ParseIntToString(s.coinsCollected);
    ReadTickerLine(w, g, c, m);
    TickerLine(w, g, c, m)
  }

  /** The text the ticker shows after a frame: the special banner while it is up, else a
      stats line that reads back as the run's current stats. */
  function TickerText(s: RunState): (t: string)
    ensures s.ticker.showingSpecial ==> t == s.ticker.message
    ensures !s.ticker.showingSpecial ==> ReadTicker(t) == Just(TickerStats(
      Formatters.Shown(s.wealth), Formatters.Shown(ToGoal(Goal, s.wealth)),
      s.coinsCollected, s.multiplier))
  {
    if s.ticker.showingSpecial then s.ticker.message else DefaultTickerString(s)
  }
}

=== FILE: game_over.dfy ===
/** The summary screen of src/scenes/GameOverScene.js: the texts `create` derives from the
    payload a finished run hands over, and the payload its restart tap passes on. */
module GameOver {

  import opened Presence
  import opened Decimal
  import Formatters
  import opened Game
  import GameProperties

  const WealthLabel: string := "Final Wealth: "
  const ToGoalLabel: string := "To Goal: "
  const CoinsLabel: string := "Coins Collected: "
  const MultiplierLabel: string := "Highest Multiplier: x"

  datatype Screen = Screen(
    title: string,
    wealthLine: string,
    toGoalLine: string,
    coinsLine: string,
    multiplierLine: string,
    restart: InitPayload)

  /** `create`: the title names the outcome, the lines report the payload, and the restart
      tap starts a fresh run. */
  function SummaryScreen(sum: Summary): (sc: Screen)
    ensures sc.title == "Victory!" <==> sum.goalReached
    ensures sc.title == "Game Over" <==> !sum.goalReached
    ensures sc.restart == FreshStart
  {
    Screen(
      if sum.goalReached then "Victory!" else "Game Over",
      WealthLabel + Formatters.FormatMoney(sum.wealth),
      ToGoalLabel + Formatters.FormatMoney(ToGoal(sum.goal, sum.wealth)),
      CoinsLabel + IntToString(sum.coins),
      MultiplierLabel + MultiplierText(sum.highestMultiplier),
      FreshStart)
  }

  /** The coins line shows the payload's coin count unchanged, and the multiplier line the
      payload's highest multiplier. */
  lemma SummaryReadsBack(sum: Summary)
    ensures var sc := SummaryScreen(sum);
      && |sc.coinsLine| > |CoinsLabel| && sc.coinsLine[..|CoinsLabel|] == CoinsLabel
      && ParseInt(sc.coinsLine[|CoinsLabel|..]) == Just(sum.coins)
      && |sc.multiplierLine| > |MultiplierLabel| && sc.multiplierLine[..|MultiplierLabel|] == MultiplierLabel
      && ParseInt(sc.multiplierLine[|MultiplierLabel|..]) == Just(sum.highestMultiplier)
  {
    var sc := SummaryScreen(sum);
    assert sc.coinsLine[|CoinsLabel|..] == IntToString(sum.coins);
    assert sc.multiplierLine[|MultiplierLabel|..] == MultiplierText(sum.highestMultiplier);
    ParseIntToString(sum.coins);
  }

  /** The wealth and to-goal lines read back as the payload's wealth and the clamped
      remainder `max(goal - wealth, 0)`: exactly below a million, and as the nearest hundredth
      of a million or a billion, with that suffix, above. */
  lemma SummaryMoneyLines(sum: Summary)
    ensures var sc := SummaryScreen(sum);
      && sc.wealthLine[..|WealthLabel|] == WealthLabel
      && sc.toGoalLine[..|ToGoalLabel|] == ToGoalLabel
      && Formatters.ReadMoney(sc.wealthLine[|WealthLabel|..]) == Just(Formatters.Shown(sum.wealth))
      && Formatters.ReadMoney(sc.toGoalLine[|ToGoalLabel|..])
           == Just(Formatters.Shown(ToGoal(sum.goal, sum.wealth)))
  {
    var sc := SummaryScreen(sum);
    assert sc.wealthLine[|WealthLabel|..] == Formatters.FormatMoney(sum.wealth);
    assert sc.toGoalLine[|ToGoalLabel|..] == Formatters.FormatMoney(ToGoal(sum.goal, sum.wealth));
    Formatters.ReadFormatMoney(sum.wealth);
    Formatters.ReadFormatMoney(ToGoal(sum.goal, sum.wealth));
  }

  /** A victory summary produced by the game shows nothing left to the goal. */
  lemma VictoryShowsGoalMet(p: Params, s: RunState, e: Event)
    requires ValidParams(p) && Admissible(p, e) && GameProperties.Inv(s)
    requires Step(p, s, e).Finished? && Step(p, s, e).summary.goalReached
    ensures var sum := Step(p, s, e).summary;
      ToGoal(sum.goal, sum.wealth) == 0 && SummaryScreen(sum).toGoalLine == "To Goal: $0"
      && SummaryScreen(sum).title == "Victory!"
  {
    GameProperties.StepMonotone(p, s, e);
    var sum := Step(p, s, e).summary;
    assert NatToString(0) == "0";
    assert Formatters.FormatMoney(0) == "$0";
  }

  /** Restarting from the summary forgets the previous run: the next run starts from the
      defaults whatever the payload was. */
  lemma RestartStartsFresh(p: Params, sum: Summary)
    requires ValidParams(p)
    ensures var s := Init(p, SummaryScreen(sum).restart);
      && s.wealth == 0 && s.coinsCollected == 0 && s.multiplier == 1
      && s.highestMultiplier == 1 && s.lives == p.startingLives && s.phase == Playing
      && GameProperties.Inv(s)
  {
    GameProperties.FreshRun(p);
  }
}

=== FILE: game_properties.dfy ===
/** What the GameScene state machine keeps true over a run, and whole scenarios (running out
    of lives, winning on the last coin), proved over sequences of events. */
module GameProperties {

  import opened Config
  import opened Game

  /** The multiplier starts at 1 and only ever doubles. */
  predicate IsPowerOfTwo(m: int)
    decreases if m < 0 then 0 else m
  {
    m == 1 || (m >= 2 && m % 2 == 0 && IsPowerOfTwo(m / 2))
  }

  lemma DoublePowerOfTwo(m: int)
    requires IsPowerOfTwo(m)
    ensures IsPowerOfTwo(2 * m) && m >= 1
  {
    assert (2 * m) / 2 == m;
  }

  /** The invariant of every state a run reaches from a fresh start. */
  predicate Inv(s: RunState) {
    && s.lives >= 0
    && (s.phase.Playing? || s.phase.AwaitingTap? ==> s.lives >= 1)
    && s.wealth >= 0 && s.coinsCollected >= 0
    && IsPowerOfTwo(s.multiplier) && IsPowerOfTwo(s.highestMultiplier)
    && s.highestMultiplier <= s.multiplier
    && (s.phase.WinPending? <==> s.wealth >= Goal)
    && (forall h :: h in s.coins ==> 1 <= h <= s.spawnCount)
    && (forall h :: h in s.coins ==> s.coins[h].value == CoinValue(s.coins[h].kind))
    && (s.ticker.speed == 0 || s.ticker.speed == DefaultTickerSpeed)
  }

  /** A fresh run (title screen or summary-screen restart) starts from the defaults and
      satisfies the invariant. */
  lemma FreshRun(p: Params)
    requires ValidParams(p)
    ensures var s := Init(p, FreshStart);
      && s.wealth == 0 && s.coinsCollected == 0 && s.multiplier == 1
      && s.highestMultiplier == 1 && s.lives == p.startingLives
      && Inv(s)
  {
  }

  /** Continuing after a survived hit keeps every stat and starts a new spawn cycle. */
  lemma ContinueKeepsProgress(p: Params, s: RunState)
    requires Inv(s) && s.phase.AwaitingTap?
    ensures var s' := TapStep(p, s);
      && s'.lives == s.lives && s'.wealth == s.wealth && s'.coinsCollected == s.coinsCollected
      && s'.multiplier == s.multiplier && s'.highestMultiplier == s.highestMultiplier
      && s'.spawnCount == 0 && s'.coins == map[] && s'.phase == Playing
      && !s'.ticker.showingSpecial && s'.ticker.speed == DefaultTickerSpeed
      && Inv(s')
  {
  }

  lemma CollectPreservesInv(s: RunState, handle: nat, now: int)
    requires Inv(s) && s.phase.Playing?
    ensures Inv(CollectCoinStep(s, handle, now))
  {
    if handle in s.coins {
      var c := s.coins[handle];
      var s' := CollectCoinStep(s, handle, now);
      if c.special {
        DoublePowerOfTwo(s.multiplier);
      }
      assert c.value > 0;
      assert s'.multiplier >= s.multiplier >= 1;
      assert s'.wealth >= s.wealth;
    }
  }

  /** Every event keeps the invariant. */
  lemma StepPreservesInv(p: Params, s: RunState, e: Event)
    requires ValidParams(p) && Admissible(p, e) && Inv(s)
    ensures Step(p, s, e).Running? ==> Inv(Step(p, s, e).state)
  {
    match e
    case CollectCoin(handle, now) =>
      if s.phase.Playing? {
        CollectPreservesInv(s, handle, now);
      }
    case _ =>
  }

  /** Within a run no stat ever goes down; a summary reports the run's stats as they stand,
      never a negative life count, and claims the goal only when the wealth reached it. */
  lemma StepMonotone(p: Params, s: RunState, e: Event)
    requires ValidParams(p) && Admissible(p, e) && Inv(s)
    ensures Step(p, s, e).Running? ==>
      var s' := Step(p, s, e).state;
      && s'.wealth >= s.wealth && s'.coinsCollected >= s.coinsCollected
      && s'.multiplier >= s.multiplier && s'.highestMultiplier >= s.highestMultiplier
    ensures Step(p, s, e).Finished? ==>
      var sum := Step(p, s, e).summary;
      && sum.wealth == s.wealth && sum.coins == s.coinsCollected
      && sum.highestMultiplier == s.highestMultiplier && sum.goal == Goal
      && sum.lives >= 0
      && (sum.goalReached ==> sum.wealth >= Goal)
  {
    match e
    case CollectCoin(handle, now) =>
      if s.phase.Playing? && handle in s.coins {
        DoublePowerOfTwo(s.multiplier);
        assert s.coins[handle].value > 0;
      }
    case _ =>
  }

  predicate AllAdmissible(p: Params, es: seq<Event>) {
    forall i :: 0 <= i < |es| ==> Admissible(p, es[i])
  }

  /** Feeds a sequence of events to a run; a finished run ignores the rest. */
  function Run(p: Params, s: RunState, es: seq<Event>): Outcome
    requires AllAdmissible(p, es)
    decreases |es|
  {
    if |es| == 0 then Running(s)
    else
      match Step(p, s, es[0])
      case Finished(sum) => Finished(sum)
      case Running(s') => Run(p, s', es[1..])
  }

  lemma AppendAdmissible(p: Params, a: seq<Event>, b: seq<Event>)
    requires AllAdmissible(p, a) && AllAdmissible(p, b)
    ensures AllAdmissible(p, a + b)
  {
    forall i | 0 <= i < |a + b|
      ensures Admissible(p, (a + b)[i])
    {
      if i < |a| { assert (a + b)[i] == a[i]; } else { assert (a + b)[i] == b[i - |a|]; }
    }
  }

  lemma {:induction false} RunAppend(p: Params, s: RunState, a: seq<Event>, b: seq<Event>)
    requires AllAdmissible(p, a) && AllAdmissible(p, b)
    ensures AllAdmissible(p, a + b)
    ensures Run(p, s, a + b) ==
      match Run(p, s, a)
      case Finished(sum) => Finished(sum)
      case Running(s') => Run(p, s', b)
    decreases |a|
  {
    AppendAdmissible(p, a, b);
    if |a| == 0 {
      assert a + b == b;
    } else {
      assert (a + b)[0] == a[0];
      assert (a + b)[1..] == a[1..] + b;
      match Step(p, s, a[0])
      case Finished(sum) =>
      case Running(s') =>
        RunAppend(p, s', a[1..], b);
    }
  }

  /** Over any sequence of events the invariant holds, wealth and coin count never drop, and
      a summary carries the run's final stats. */
  lemma {:induction false} RunKeepsInvariant(p: Params, s: RunState, es: seq<Event>)
    requires ValidParams(p) && AllAdmissible(p, es) && Inv(s)
    ensures Run(p, s, es).Running? ==>
      var s' := Run(p, s, es).state;
      Inv(s') && s'.wealth >= s.wealth && s'.coinsCollected >= s.coinsCollected
        && s'.multiplier >= s.multiplier
    ensures Run(p, s, es).Finished? ==>
      var sum := Run(p, s, es).summary;
      sum.wealth >= s.wealth && sum.coins >= s.coinsCollected && sum.lives >= 0
        && sum.highestMultiplier >= s.highestMultiplier
        && (sum.goalReached ==> sum.wealth >= Goal)
    decreases |es|
  {
    if |es| > 0 {
      StepPreservesInv(p, s, es[0]);
      StepMonotone(p, s, es[0]);
      match Step(p, s, es[0])
      case Finished(sum) =>
      case Running(s') =>
        assert AllAdmissible(p, es[1..]) by {
          forall i | 0 <= i < |es[1..]| ensures Admissible(p, es[1..][i]) {
            assert es[1..][i] == es[i + 1];
          }
        }
        RunKeepsInvariant(p, s', es[1..]);
    }
  }

  // ---------------------------------------------------------------------------------------
  // Scenarios

  /** A boss hit and its continuation, and the prompt's tap when lives remain. */
  function HitRounds(n: nat, now: int): (es: seq<Event>)
    requires n >= 1
    ensures |es| == 3 * n - 1
    decreases n
  {
    if n == 1 then [HitBoss(now), TimerFired(now + RespawnDelay)]
    else [HitBoss(now), TimerFired(now + RespawnDelay), Tap] + HitRounds(n - 1, now + RespawnDelay)
  }

  lemma HitRoundsAdmissible(p: Params, n: nat, now: int)
    requires n >= 1
    ensures AllAdmissible(p, HitRounds(n, now))
    decreases n
  {
    if n > 1 {
      HitRoundsAdmissible(p, n - 1, now + RespawnDelay);
      AppendAdmissible(p, [HitBoss(now), TimerFired(now + RespawnDelay), Tap],
                       HitRounds(n - 1, now + RespawnDelay));
    }
  }

  /** With `n` lives left, `n` boss hits end the run in defeat with no lives and the stats
      kept; the highest multiplier has been refreshed only if some hit was survived. */
  lemma {:induction false} LivesRunOut(p: Params, s: RunState, n: nat, now: int)
    requires ValidParams(p) && Inv(s) && s.phase.Playing? && s.lives == n && n >= 1
    ensures AllAdmissible(p, HitRounds(n, now))
    ensures Run(p, s, HitRounds(n, now)).Finished?
    ensures var sum := Run(p, s, HitRounds(n, now)).summary;
      && !sum.goalReached && sum.lives == 0
      && sum.wealth == s.wealth && sum.coins == s.coinsCollected
      && sum.highestMultiplier == (if n == 1 then s.highestMultiplier else s.multiplier)
    decreases n
  {
    HitRoundsAdmissible(p, n, now);
    var hit := HitBossStep(s, now);
    if n == 1 {
      assert Step(p, s, HitBoss(now)) == Running(hit);
      assert Step(p, hit, TimerFired(now + RespawnDelay)) == Finished(SummaryOf(hit, false, 0));
      assert HitRounds(1, now)[1..] == [TimerFired(now + RespawnDelay)];
    } else {
      var first := [HitBoss(now), TimerFired(now + RespawnDelay), Tap];
      var rest := HitRounds(n - 1, now + RespawnDelay);
      HitRoundsAdmissible(p, n - 1, now + RespawnDelay);
      RunAppend(p, s, first, rest);
      SurvivedHitRound(p, s, now);
      var next := Init(p, RestartPayload(hit.(highestMultiplier := s.multiplier, phase := AwaitingTap)));
      LivesRunOut(p, next, n - 1, now + RespawnDelay);
    }
  }

  /** A boss hit with a life to spare, its continuation and the tap restart the scene from
      the continue payload, with the highest multiplier raised to the current one. */
  lemma SurvivedHitRound(p: Params, s: RunState, now: int)
    requires ValidParams(p) && Inv(s) && s.phase.Playing? && s.lives >= 2
    ensures var prompt := HitBossStep(s, now).(highestMultiplier := s.multiplier, phase := AwaitingTap);
      Run(p, s, [HitBoss(now), TimerFired(now + RespawnDelay), Tap]) == Running(Init(p, RestartPayload(prompt)))
  {
    var first := [HitBoss(now), TimerFired(now + RespawnDelay), Tap];
    var hit := HitBossStep(s, now);
    var prompt := hit.(highestMultiplier := s.multiplier, phase := AwaitingTap);
    assert Step(p, s, HitBoss(now)) == Running(hit);
    assert Step(p, hit, TimerFired(now + RespawnDelay)) == Running(prompt);
    var next := Init(p, RestartPayload(prompt));
    assert first[1..] == [TimerFired(now + RespawnDelay), Tap];
    assert first[1..][1..] == [Tap];
    assert [Tap][1..] == [];
    assert Step(p, prompt, Tap) == Running(next);
    assert Run(p, prompt, [Tap]) == Running(next);
    assert Run(p, hit, first[1..]) == Run(p, prompt, [Tap]);
  }

  /** A run that starts with three lives and is hit three times ends
      in defeat, with no lives and nothing earned. */
  lemma ThreeHitsDefeat(p: Params, now: int)
    requires ValidParams(p) && p.startingLives == 3
    ensures AllAdmissible(p, HitRounds(3, now))
    ensures var o := Run(p, Init(p, FreshStart), HitRounds(3, now));
      o.Finished? && !o.summary.goalReached && o.summary.lives == 0 && o.summary.wealth == 0
  {
    FreshRun(p);
    LivesRunOut(p, Init(p, FreshStart), 3, now);
  }

  /** Collecting the coin, regular or special, that takes the wealth to the goal leads, once
      the one-second delay has passed, to a victory summary carrying that wealth and nothing
      left to the goal. */
  lemma GoalCoinWins(p: Params, s: RunState, handle: nat, now: int)
    requires ValidParams(p) && Inv(s) && s.phase.Playing? && handle in s.coins
    requires CollectCoinStep(s, handle, now).wealth >= Goal
    ensures AllAdmissible(p, [CollectCoin(handle, now), TimerFired(now + WinDelay)])
    ensures var o := Run(p, s, [CollectCoin(handle, now), TimerFired(now + WinDelay)]);
      && o.Finished? && o.summary.goalReached
      && o.summary.wealth == CollectCoinStep(s, handle, now).wealth
      && (!s.coins[handle].special ==> o.summary.wealth == s.wealth + s.coins[handle].value * s.multiplier)
      && o.summary.coins == s.coinsCollected + 1
      && o.summary.lives == s.lives
      && ToGoal(o.summary.goal, o.summary.wealth) == 0
  {
    var es := [CollectCoin(handle, now), TimerFired(now + WinDelay)];
    var won := CollectCoinStep(s, handle, now);
    assert Step(p, s, es[0]) == Running(won);
    assert es[1..] == [TimerFired(now + WinDelay)];
  }

  /** With this game's coin values, one regular coin worth 10 at
      multiplier 1 takes 999,999,990 to the goal. */
  lemma LastCoinExample(p: Params, now: int)
    requires ValidParams(p)
    ensures var s := Init(p, FreshStart).(wealth := 999_999_990, spawnCount := 1,
                                          coins := map[1 := Coin(Coin1, 100, 10, false)]);
      var o := Run(p, s, [CollectCoin(1, now), TimerFired(now + WinDelay)]);
      o.Finished? && o.summary.goalReached && o.summary.wealth == Goal
      && ToGoal(o.summary.goal, o.summary.wealth) == 0
  {
    FreshRun(p);
    var s := Init(p, FreshStart).(wealth := 999_999_990, spawnCount := 1,
                                  coins := map[1 := Coin(Coin1, 100, 10, false)]);
    assert Inv(s);
    GoalCoinWins(p, s, 1, now);
  }

  /** A special coin's value is credited at the doubled multiplier, so the gain is twice the
      coin's value times the multiplier held before the collection. */
  lemma SpecialCoinGain(s: RunState, handle: nat, now: int)
    requires Inv(s) && handle in s.coins
    ensures var c := s.coins[handle];
      var s' := CollectCoinStep(s, handle, now);
      && s'.wealth - s.wealth == c.value * s.multiplier * (if c.special then 2 else 1)
      && s'.coinsCollected == s.coinsCollected + 1
      && (c.special ==> s'.multiplier == 2 * s.multiplier)
      && (!c.special ==> s'.multiplier == s.multiplier && s'.ticker.message == s.ticker.message
                         && s'.ticker.showingSpecial == s.ticker.showingSpecial)
  {
  }

  /** The victory summary does not refresh the highest multiplier: a run can win with a
      summary multiplier below the one it was playing at. */
  lemma WinCanUnderreportMultiplier(p: Params, now: int)
    requires ValidParams(p)
    ensures var s := Init(p, FreshStart).(wealth := 999_999_990, spawnCount := 1,
                                          coins := map[1 := Coin(Coin1, 100, 10, true)]);
      var won := CollectCoinStep(s, 1, now);
      var o := TimerStep(won, now + WinDelay);
      won.multiplier == 2 && o.Finished? && o.summary.goalReached
      && o.summary.highestMultiplier == 1
  {
  }

  /** Leaving the screen ends the run with zero lives whatever the count, also when lives
      were left. */
  lemma OutOfBoundsIgnoresLives(s: RunState, now: int, playerY: int, height: int)
    requires playerY < 0 || playerY > height
    ensures var o := FrameStep(s, now, playerY, height);
      o.Finished? && o.summary.lives == 0 && !o.summary.goalReached
      && o.summary.wealth == s.wealth && o.summary.coins == s.coinsCollected
  {
  }

  /** The stats line never equals a special banner: it starts with "VIKTOR". */
  lemma DefaultTickerIsNotBanner(s: RunState, kind: CoinKind)
    ensures DefaultTickerString(s) != SpecialMessage(kind)
  {
    assert DefaultTickerString(s)[0] == 'V';
    assert SpecialMessage(kind)[0] != 'V';
  }

  /** After a special coin is collected at `t` (whether or not it reaches the goal), a frame at `now`
      shows that coin's banner exactly while `now <= t + 3000`; after that the ticker shows
      the stats line of the current run at the default speed. */
  lemma SpecialBannerWindow(s: RunState, handle: nat, t: int, now: int, playerY: int, height: int)
    requires Inv(s) && s.phase.Playing? && handle in s.coins && s.coins[handle].special
    requires 0 <= playerY <= height
    ensures var s' := CollectCoinStep(s, handle, t);
      var o := FrameStep(s', now, playerY, height);
      && o.Running?
      && (TickerText(o.state) == SpecialMessage(s.coins[handle].kind) <==> now <= t + SpecialTickerDuration)
      && (now > t + SpecialTickerDuration ==>
            TickerText(o.state) == DefaultTickerString(s') && o.state.ticker.speed == DefaultTickerSpeed)
  {
    var s' := CollectCoinStep(s, handle, t);
    var o := FrameStep(s', now, playerY, height);
    if now > t + SpecialTickerDuration {
      assert o.state.(ticker := s'.ticker) == s';
      DefaultTickerIsNotBanner(o.state, s.coins[handle].kind);
      assert DefaultTickerString(o.state) == DefaultTickerString(s');
    }
  }
}

=== FILE: presence.dfy ===
/** Whether a value is there. A field of a JavaScript payload that is `undefined` is
    `Nothing`; a parser that rejects its input also answers `Nothing`. */
module Presence {

  datatype Maybe<+T> = Nothing | Just(value: T) {

    /** The value when present, else `fallback` (the `x !== undefined ? x : d` idiom). */
    function Or(fallback: T): (r: T)
      ensures Just? ==> r == value
      ensures Nothing? ==> r == fallback
    {
      if Just? then value else fallback
    }
  }
}
